=== FILE: README.md ===
# copy-db `copyData`, modelled in Dafny

`copyData` (app.js:45-167) merges the rows of one MySQL schema into another
schema with the same tables. The schema written by the final INSERTs (`dbA`,
called the *recipient* here) gains the rows of the other schema (`dbB`, the
*donor*). The run has two phases.

1. **Key-space reconciliation** (app.js:65-101). Each donor table whose
   primary key contains `id` is visited in name order, skipping the tables in
   `skipTables`. The run reads `COALESCE(MAX(id), 0)` on both sides and
   takes the larger as the offset `k`. It adds `k` to every donor id of the
   table and to every donor column that references the table. If either
   MAX query fails, the table is logged and passed over. A failing UPDATE
   ends the whole run. The id UPDATE fails when a moved row lands on the
   primary key of a row that has not moved yet.
2. **Column-intersection copy** (app.js:104-154). Every donor table with
   key-column usage is visited in name order, again skipping
   `skipTables`. The recipient's column names are filtered down to those
   the donor also has, keeping recipient order. One
   `INSERT … SELECT` then appends the donor rows by name. A failing INSERT
   is logged and changes nothing.

The model is pure functions over immutable data:

| file | module | what it holds |
|---|---|---|
| `sql.dfy` | `Sql` | nullable integer cells, rows as name→cell maps, `UPDATE … SET c = c + k`, SQL `MAX`, `COALESCE(MAX(id), 0)` |
| `catalog.dfy` | `SchemaCatalog` | what the `information_schema` queries return: the keyed tables, all tables, foreign-key edges, column names per side; also each side's primary-key columns and each edge's referenced column, which the engine uses but the queries do not read |
| `reconcile.dfy` | `KeySpace` | phase 1: the offset, the id shift, the foreign-key cascade, the loop |
| `copier.dfy` | `Copier` | phase 2: the matched column list, the INSERT, the loop |
| `migration.dfy` | `Migration` | the whole run, with the properties that span both phases |
| `scenarios.dfy` | `Scenarios` | the orders example with one order line, worked through; inputs on which phase 1 fails or breaks a link |

The `information_schema` answers are the `Catalog` input, so the
`ORDER BY TABLE_NAME` and `DISTINCT` of those queries are properties of the
input lists. A failing UPDATE in phase 1 is an `Aborted` result. Its
updates up to the failure stay applied to the donor, and phase 2 never
runs, as the outer `catch` (app.js:161) arranges.

Three details of the code are easy to misread, the first because its
comments say otherwise. The model follows the code.

- **Direction.** The comments at app.js:73 and app.js:87 say the maximum is
  read from DB B and the ids are updated in DB A. The UPDATEs
  (app.js:89, 99) actually run on `dbB`, and the INSERT (app.js:143) writes
  into DBA. So the donor is shifted and then copied into the recipient,
  which is read only.
- **Which tables phase 2 copies.** The table list (app.js:105-111) is the
  donor tables that appear in `KEY_COLUMN_USAGE`, so a table with no key
  constraint at all is never copied. `Catalog.allTables` is that list.
- **Which tables count as keyed.** The phase-1 list (app.js:55-63) is every
  table with `id` in its `PRIMARY` constraint, including composite keys
  that contain `id`. `Catalog.keyedTables` is that list. The engine checks
  the whole primary key, so the INSERT and the id UPDATE are judged by
  all of the key's columns (`Catalog.recipientKeys`, `Catalog.donorKeys`),
  not by `id` alone.

The engine checks the primary key after each row of the id UPDATE. The
model assumes it visits the rows in ascending key order, as InnoDB does
for an UPDATE without `WHERE`. Under that order, a shift by k > 0 fails
exactly when some row, moved, takes the key of another row as it was
(`KeySpace.ShiftCollides`). A statement that fails is rolled back on its
own, so the donor keeps its rows from before that UPDATE.

## Model

| member | source | states |
|---|---|---|
| Sql.Max | app.js:76-77 | SQL `MAX`: NULL exactly when every cell is NULL; otherwise one of the cells and at least every non-NULL cell |
| Sql.MaxId | app.js:76-77 | `COALESCE(MAX(id), 0)`: an upper bound of every id of the table; 0 when no row has an id; otherwise equal to some row's id |
| Sql.ShiftRow | app.js:89 | `SET c = c + k` on one row: the cell gains k and stays NULL if it was NULL; every other column is unchanged; no column appears or disappears |
| Sql.ShiftColumnByZero | app.js:83-89 | an UPDATE by an offset of 0 leaves the table exactly as it was |
| Sql.ShiftKeepsIdsDistinct | app.js:89 | moving every id by the same amount keeps distinct ids distinct |
| KeySpace.Offset | app.js:74-82 | the offset exists exactly when the table is on both sides, since otherwise a MAX query fails and the table is passed over; it is the larger of the two `COALESCE(MAX(id), 0)` values, so at least every id on both sides, and either 0 or one of those ids |
| KeySpace.OffsetNonNegative | app.js:76-78 | with no donor id below 1, the offset is not negative |
| KeySpace.ShiftKeysCell | app.js:89 | the id UPDATE adds k to the `id` cell of every row of its table, keeps NULL ids NULL, and changes no other cell or table |
| KeySpace.Cascade | app.js:92-100 | the foreign-key UPDATEs keep every table's name and row count; they abort exactly when some referencing table is missing from the donor |
| KeySpace.CascadeEffect | app.js:95-100 | a completed cascade adds to each cell k once for every edge that names its column |
| KeySpace.UnlistedColumnUnshifted | app.js:95-100 | a column that no edge names receives nothing from the cascade |
| KeySpace.ForeignColumnShift | app.js:92-100 | if no other edge names the same referencing column, the cascade for a parent adds k to an edge's referencing column when the edge references that parent, and 0 otherwise, whichever parent column the edge references |
| KeySpace.CascadeLeavesOthers | app.js:95-100 | a table that holds no referencing column keeps its rows through the cascade |
| KeySpace.ReconcileTable | app.js:70-100 | one phase-1 iteration: a table missing on either side leaves the donor as it was; the iteration aborts exactly when the table is on both sides and either the id UPDATE meets a duplicate primary key or a referencing table is missing from the donor; a duplicate key leaves the donor as it was |
| KeySpace.ReconcileTableLeavesOthers | app.js:87-100 | an iteration leaves alone every other table that holds no column referencing the processed table |
| KeySpace.ReconcileTableEffect | app.js:87-100 | after a completed iteration, each cell equals its old value plus the id shift (for the table's own `id`) plus k for each edge naming the cell's column; NULL stays NULL |
| KeySpace.IterationEffect | app.js:89-100 | the id UPDATE by k followed by the foreign-key UPDATEs by k, when they complete, add to each cell k for the table's own `id` plus k for each edge naming the cell's column; NULL stays NULL |
| KeySpace.ZeroOffsetChangesNothing | app.js:83-89 | when both maxima are 0, the iteration's UPDATEs leave the donor exactly as it was |
| KeySpace.ShiftedKeysClearRecipient | app.js:74-89 | with positive donor ids, every moved id is above every recipient id of the table, and distinct donor ids stay distinct |
| KeySpace.MovedKeysClearUnmoved | app.js:89 | with no donor id below 1, the id UPDATE never meets a duplicate primary key, whatever the key's other columns |
| KeySpace.IterationKeepsIdsAboveZero | app.js:74-100 | with no donor id below 1 and every referencing table present, an iteration completes and leaves no id below 1 (no key on a referencing column is checked) |
| KeySpace.ReconcileCompletes | app.js:65-101 | phase 1 completes when every referencing table exists in the donor and no donor id is below 1 (no key on a referencing column is checked) |
| KeySpace.Reconcile | app.js:65-101 | phase 1 keeps every table's name and row count |
| KeySpace.ReconcileTablePreservesLinks | app.js:87-100 | one iteration keeps every link to a parent's `id`: a child cell equal to it still equals it afterwards, when the link's own column is not an `id`, the parent's `id` references nothing, and no other edge names the link's column |
| KeySpace.ReconcilePreservesLinks | app.js:65-101 | a completed phase 1 keeps every link to a parent's `id` inside the donor, under the same conditions |
| KeySpace.IdCellAfterIteration | app.js:87-100 | for a table whose `id` references nothing, an iteration moves a row's id by the offset if the table is the one processed, and otherwise leaves it alone |
| KeySpace.IdsAfterIteration | app.js:87-100 | for a table whose `id` references nothing, one iteration moves its ids by the offset if it is the table processed, and otherwise leaves them alone |
| KeySpace.ReconcileShiftsKeys | app.js:65-101 | after a completed phase 1, a keyed, unskipped table on both sides whose `id` references nothing has its donor ids moved by its offset; any other such table's ids are unchanged |
| KeySpace.ReconcileLeavesTableAlone | app.js:65-69 | a table that phase 1 never processes (not keyed, or skipped), and that holds no referencing column, keeps its donor rows |
| Copier.Matched | app.js:127-131 | the INSERT column list holds a column exactly when both sides have it, in recipient order |
| Copier.CopyTable | app.js:120-153 | with no common column, or when the engine rejects the INSERT (a table missing, or two rows sharing every column of the recipient's primary key), the recipient is unchanged; otherwise the table keeps its rows and gains one row per donor row, holding exactly the common columns with the donor's values; no other table changes |
| Copier.CopyAll | app.js:112-154 | phase 2 keeps every table's name and keeps every table's old rows as a prefix, in order |
| Copier.CopyAllLeavesTable | app.js:112-117 | a table that phase 2 skips or does not list keeps its rows |
| Copier.CopyAllTable | app.js:112-154 | in a table list without repeats, a listed, unskipped table ends as its own iteration left it |
| Copier.CopiedRowsUseCommonColumns | app.js:127-145 | every row phase 2 adds holds only columns that both sides list for that table |
| Copier.CopyAllKeepsKeysDistinct | app.js:142-152 | a table with a primary key, simple or composite, whose rows have distinct keys still has distinct keys after phase 2 |
| Migration.CopyData | app.js:45-167 | the whole run: table names are kept on both sides; a run cut short in phase 1 leaves the recipient unchanged; the recipient's old rows stay a prefix of each table |
| Migration.CopyDataCompletes | app.js:65-161 | the run reaches phase 2 when every referencing table exists in the donor and no donor id is below 1 (no key on a referencing column is checked) |
| Migration.MergedKeys | app.js:65-154 | merged keys end to end. The table must be keyed and on both sides, have `id` among both column lists and as the recipient's whole primary key, have an `id` that references nothing, have distinct ids on each side and have positive donor ids. After a completed run its ids are its own ids, in order, followed by the donor's ids moved by the table's offset k, computed from both schemas before the run |
| Migration.MergedKeysDistinct | app.js:65-154 | under the same conditions, every id the run adds to the table is above every id it had, and the merged table has no id twice |
| Migration.ForeignKeysSurvive | app.js:91-100 | after a completed run, every link to a parent's `id` inside the donor still holds, when the link's own column is not an `id`, the parent's `id` references nothing, and no other edge names the link's column |
| Migration.SkippedTablesUntouched | app.js:30 | a table in `skipTables` keeps its recipient rows; it also keeps its donor rows if it holds no referencing column at all |
| Scenarios.OrdersOffset | app.js:74-78 | orders example: recipient ids {1, 2} and donor ids {1, 2, 3} give offset 3 |
| Scenarios.OrdersCompletes | app.js:65-101 | the orders run reaches phase 2 |
| Scenarios.OrdersScenario | app.js:65-154 | orders example: after the run the recipient's `orders` ids are 1, 2, 4, 5, 6, in row order |
| Scenarios.OrdersCascade | app.js:89-100 | orders example: the donor's order line for order 1 points at order 4 after phase 1 |
| Scenarios.OrdersCopiedLine | app.js:89-145 | orders example: the recipient gains that order line, pointing at order 4 |
| Scenarios.ZeroIdCollides | app.js:76-89 | a donor id of 0 is moved onto the recipient's largest id, so the disjointness lemmas need ids of at least 1 |
| Scenarios.ZeroIdUpdateAborts | app.js:76-89 | an empty recipient table and donor ids {0, 3} give offset 3; the id UPDATE moves 0 onto 3, so the iteration aborts and the donor keeps its rows |
| Scenarios.NonIdReferenceBreaks | app.js:92-100 | an edge that references a parent column other than `id` has its child column shifted while the parent column stays, so a link that held before is broken |

## Left out

- Connections, dotenv, `process.exit` on a failed connection, the
  `FOREIGN_KEY_CHECKS` and `sql_mode` session settings, `destroy`, and all
  logging (app.js:1-52, 140, 156-166). The model has no I/O. Foreign-key
  checks are off during the run, so no UPDATE or INSERT is rejected for
  referential reasons. The model does not reject any for that reason.
- The SQL text itself: backtick and quote building, and the
  `information_schema` queries (app.js:55-63, 92-93, 105-111, 123-128).
  Their answers are the `Catalog` input. The foreign-key query does not
  filter on the referenced schema, so the edge list is whatever that query
  returns.
- The order of the foreign-key query's rows is unspecified. The model takes
  the catalog's order. Each cascade UPDATE adds a constant to one column,
  so the order changes only which UPDATEs land before an abort.
- Column-name case in phase 1. The model matches the key column `id`
  exactly (`Sql.IdColumn`). The engine matches column names without
  regard to case: the keyed-table query (app.js:59), `MAX(id)`
  (app.js:76-77) and `SET id = id + ?` (app.js:89) all reach a primary-key
  column named `ID` or `Id`. For such a table the model reads every id as
  NULL, gets an offset of 0 and leaves the table unshifted, where the
  source shifts it. Phase 2 has no such gap: its column match (app.js:131)
  compares names exactly, as the model does.
- Driver value types. `Math.max` over driver values (app.js:78) and the
  `typeof` check (app.js:83) assume numeric results. The model uses
  mathematical integers, so it has no overflow of the id column's SQL type.
- KeySpace.Offset: a table that exists on both sides but has no `id`
  column on the recipient makes the MAX query fail, and the source passes
  that table over. The model treats the absent column as NULL in every row
  and gets 0 from that side.
- KeySpace.Cascade: the foreign-key UPDATEs check no key at all. A
  UNIQUE index on a referencing column, or a primary key that contains
  one (a join table keyed by `(user_id, role_id)`, say), can make such an
  UPDATE fail part-way when a moved value lands on one not yet moved.
  That failure is not modelled. The one
  cascade failure modelled, a referencing table missing from the donor,
  cannot arise when the edges are read from the donor's own schema, as
  app.js:93 does.
- KeySpace.ReconcileTable: the duplicate-key failure of the id UPDATE
  assumes ascending key order, and it checks only the processed table's
  primary key: another unique index containing `id` is not checked. The
  cascade UPDATEs that follow check no key at all, as described for
  KeySpace.Cascade.
- KeySpace.Reconcile inherits those gaps from each iteration. It no longer
  promises to complete whenever every referencing table exists, because
  the id UPDATE can also fail. KeySpace.ReconcileCompletes states
  completion with the added condition that no donor id is below 1.
- Migration.CopyData inherits the same gaps from phase 1. It no longer
  promises to complete whenever every referencing table exists.
  Migration.CopyDataCompletes states completion with the added condition
  that no donor id is below 1.
- KeySpace.IterationKeepsIdsAboveZero promises that the iteration
  completes, but only because the model checks no key on a referencing
  column (see KeySpace.Cascade). With a UNIQUE index on such a column, or
  a primary key containing it, a foreign-key UPDATE (app.js:99) can move
  one key onto another that has not moved yet, and the source aborts.
- KeySpace.ReconcileCompletes has the same gap: with a key on a
  referencing column, phase 1 can abort at app.js:99 even when every donor
  id is at least 1 and every referencing table exists.
- Migration.CopyDataCompletes has the same gap, over the whole run: that
  abort reaches the catch at app.js:161 before phase 2.
- Copier.CopyTable: the INSERT is rejected in two modelled cases: the
  table is missing on a side, or two rows would share every column of the
  recipient's primary key. A duplicate on another unique key also rejects
  it, and that is not modelled. The session sets `sql_mode` to
  `NO_ENGINE_SUBSTITUTION` (app.js:140), which turns strict mode off, so
  the engine accepts some rows only after coercing them: a value of the
  wrong type is converted or truncated, and a NOT NULL column that gets
  NULL or no value stores its implicit default. The model does not
  reproduce these coerced values: it stores the donor value unchanged,
  and a recipient column outside the common list is absent from the
  inserted row and reads as NULL. A NULL key cell is compared as a value.
- Migration.SkippedTablesUntouched: the donor half needs the skipped table
  to hold no referencing column at all. The code cascades into such a
  table when the table it references is processed (app.js:95-100).
- KeySpace.ReconcileTablePreservesLinks covers only links to the
  parent's `id`. The foreign-key query (app.js:92-93) does not read the
  referenced column, so an edge to any other parent column is shifted too,
  and its links break. Scenarios.NonIdReferenceBreaks gives an instance.
  The lemma also assumes three things. First, the link's own column is
  not an `id`: a 1:1 table whose `id` references its parent's key would
  have that id moved twice, by its own id UPDATE and by the cascade.
  Second, the parent's `id` references nothing: otherwise a cascade from a
  third table moves the parent's id without moving the child cell. Third,
  no other edge names the link's own column: a column listed twice is
  moved twice. Other columns, in the child table or elsewhere, may appear
  in any number of edges.
- KeySpace.ReconcilePreservesLinks has the same scope and assumptions,
  over the whole of phase 1.
- Migration.ForeignKeysSurvive has the same scope and assumptions, over
  the whole run.
- KeySpace.OffsetNonNegative: the lemma's hypothesis, no donor id below
  1, is a sufficient condition only. The offset is negative exactly when
  both sides hold ids and all of them are negative: `COALESCE` then does
  not apply, and the larger negative maximum is the offset. Recipient ids
  {3} with donor ids {-5} still give 3, but the lemma does not cover them.
- Migration.MergedKeys is stated for a table whose recipient primary key
  is `id` alone. For a composite key that contains `id`, Copier.CopyTable
  still accepts or rejects by the whole key, but no merged-ids lemma is
  stated. It also needs donor ids of at least 1, which an auto-increment
  key gives. Scenarios.ZeroIdCollides and Scenarios.ZeroIdUpdateAborts show
  why.
- Migration.MergedKeysDistinct has the same two limits.
- KeySpace.ShiftedKeysClearRecipient needs donor ids of at least 1, for
  the same reason.
- The commented-out shell and SQL snippets after the call (app.js:171-177).

=== FILE: catalog.dfy ===
/**
 What the migration learns from `information_schema` before it touches any
 data: the donor's keyed tables, all of its tables, the foreign-key edges
 inside the donor, and each schema's column names per table. The answers
 are inputs here; the queries that produce them are not modelled.
 */
module SchemaCatalog {
  import opened Sql

  /** One `KEY_COLUMN_USAGE` row of the donor: `childTable.childColumn`
      references `parentTable.parentColumn`. The migration reads only the
      first three; the referenced column is kept to say which links the
      cascade keeps. */
  datatype ForeignKey = ForeignKey(childTable: string, childColumn: string, parentTable: string, parentColumn: string)

  datatype Catalog = Catalog(
    keyedTables: seq<string>,                  // donor tables with `id` in their primary key, by name
    allTables: seq<string>,                    // donor tables with any key-column usage, by name
    foreignKeys: seq<ForeignKey>,              // foreign-key edges inside the donor
    recipientColumns: map<string, seq<string>>, // recipient column names per table, in table order
    donorColumns: map<string, seq<string>>,     // donor column names per table, in table order
    recipientKeys: map<string, seq<string>>,    // recipient primary-key columns per table
    donorKeys: map<string, seq<string>>)        // donor primary-key columns per table

  /** The column names of a table; an unknown table has none, as a
      `COLUMNS` query for it returns no rows. */
  function Columns(columns: map<string, seq<string>>, table: string): (r: seq<string>)
    ensures table !in columns ==> r == []
    ensures table in columns ==> r == columns[table]
  {
    if table in columns then columns[table] else []
  }

  /** The edges whose referenced table is `parent`, in catalog order. */
  function ReferencesTo(fks: seq<ForeignKey>, parent: string): (r: seq<ForeignKey>)
    ensures forall e :: e in r <==> e in fks && e.parentTable == parent
    ensures |r| <= |fks|
  {
    if |fks| == 0 then []
    else if fks[0].parentTable == parent then [fks[0]] + ReferencesTo(fks[1..], parent)
    else ReferencesTo(fks[1..], parent)
  }

  /** The tables that hold a referencing column of some edge. */
  function ChildTables(fks: seq<ForeignKey>): set<string> {
    set e | e in fks :: e.childTable
  }

  /** The `id` column of `table` references nothing: no edge has it as
      its referencing column. */
  predicate IdNotForeign(fks: seq<ForeignKey>, table: string) {
    forall e :: e in fks && e.childTable == table ==> e.childColumn != IdColumn
  }

  /** The column `table.column` is the referencing column of at most one
      edge; other columns may appear in any number of edges. */
  predicate SingleEdge(fks: seq<ForeignKey>, table: string, column: string) {
    forall i, j ::
      (0 <= i < |fks| && 0 <= j < |fks| &&
       fks[i].childTable == table && fks[i].childColumn == column &&
       fks[j].childTable == table && fks[j].childColumn == column) ==> i == j
  }

  /** A name list as `SELECT DISTINCT` returns it. */
  predicate NoDuplicates(names: seq<string>) {
    forall i, j :: 0 <= i < |names| && 0 <= j < |names| && i != j ==> names[i] != names[j]
  }
}

=== FILE: copier.dfy ===
/**
 Phase 2 of `copyData`: the column-intersection copy. For each table that is
 not skipped, the recipient's column names are filtered down to those the
 donor also has, in recipient order, and one
 `INSERT INTO recipient.t (cols) SELECT cols FROM donor.t` moves the donor
 rows across by name. The donor is read, never written.
 */
module Copier {
  import opened Sql
  import opened SchemaCatalog

  /** `a` lists names of `b`, in the order `b` lists them. */
  predicate Subsequence(a: seq<string>, b: seq<string>)
    decreases |b|
  {
    if |a| == 0 then true
    else if |b| == 0 then false
    else (a[0] == b[0] && Subsequence(a[1..], b[1..])) || Subsequence(a, b[1..])
  }

  /** The column list of the INSERT (app.js:127-131): the recipient's
      columns that the donor also has, in recipient order. It holds a
      column exactly when both sides have it. */
  function Matched(recipientColumns: seq<string>, donorColumns: seq<string>): (r: seq<string>)
    ensures forall c :: c in r <==> c in recipientColumns && c in donorColumns
    ensures Subsequence(r, recipientColumns)
  {
    if |recipientColumns| == 0 then []
    else
      var rest := Matched(recipientColumns[1..], donorColumns);
      if recipientColumns[0] in donorColumns then
        var r := [recipientColumns[0]] + rest;
        assert r[1..] == rest;
        r
      else rest
  }

  /** One donor row as `SELECT cols` yields it and the INSERT stores it:
      the listed columns only, each holding the donor's value. */
  function Project(row: Row, columns: seq<string>): Row {
    map c | c in columns :: Get(row, c)
  }

  function ProjectAll(t: Table, columns: seq<string>): (r: Table)
    ensures |r| == |t|
    ensures forall i :: 0 <= i < |t| ==> r[i] == Project(t[i], columns)
  {
    seq(|t|, i requires 0 <= i < |t| => Project(t[i], columns))
  }

  /** `after` is `before` followed by one row per `source` row, each holding
      exactly the listed columns with the source row's values. */
  ghost predicate InsertedByName(before: Table, after: Table, source: Table, columns: seq<string>) {
    && |after| == |before| + |source|
    && after[..|before|] == before
    && forall i :: 0 <= i < |source| ==>
      && (forall c :: c in after[|before| + i] <==> c in columns)
      && (forall c :: c in columns ==> after[|before| + i][c] == Get(source[i], c))
  }

  /** Whether the engine accepts the INSERT: both tables exist, and when
      the recipient table has a primary key `key` (empty for none), no two
      rows after it share all of its columns. */
  predicate InsertAccepted(recipient: Schema, donor: Schema, table: string, columns: seq<string>, key: seq<string>) {
    && table in recipient && table in donor
    && (|key| > 0 ==> DistinctKeys(recipient[table] + ProjectAll(donor[table], columns), key))
  }

  /** One iteration of the phase-2 loop for a table not in the skip list
      (app.js:120-153). With no common column nothing is issued; a rejected
      INSERT is logged and changes nothing; otherwise the table gains the
      donor rows by name after its own rows, and only that table changes. */
  function CopyTable(recipient: Schema, donor: Schema, table: string,
                     recipientColumns: seq<string>, donorColumns: seq<string>, key: seq<string>): (r: Schema)
    ensures r.Keys == recipient.Keys
    ensures forall x :: x in recipient && x != table ==> r[x] == recipient[x]
    ensures |Matched(recipientColumns, donorColumns)| == 0 ==> r == recipient
    ensures !InsertAccepted(recipient, donor, table, Matched(recipientColumns, donorColumns), key) ==> r == recipient
    ensures |Matched(recipientColumns, donorColumns)| > 0 &&
            InsertAccepted(recipient, donor, table, Matched(recipientColumns, donorColumns), key) ==>
      InsertedByName(recipient[table], r[table], donor[table], Matched(recipientColumns, donorColumns))
  {
    var columns := Matched(recipientColumns, donorColumns);
    if |columns| == 0 then recipient
    else if !InsertAccepted(recipient, donor, table, columns, key) then recipient
    else
      var rows := recipient[table] + ProjectAll(donor[table], columns);
      assert rows[..|recipient[table]|] == recipient[table];
      recipient[table := rows]
  }

  /** The whole phase-2 loop over the table list, in order. */
  function CopyAll(recipient: Schema, donor: Schema, tables: seq<string>, skip: seq<string>,
                   catalog: Catalog): (r: Schema)
    ensures r.Keys == recipient.Keys
    ensures forall x :: x in recipient ==>
      |recipient[x]| <= |r[x]| && r[x][..|recipient[x]|] == recipient[x]
    decreases |tables|
  {
    if |tables| == 0 then recipient
    else
      var t := tables[0];
      var next :=
        if t in skip then recipient
        else CopyTable(recipient, donor, t, Columns(catalog.recipientColumns, t),
                       Columns(catalog.donorColumns, t), Columns(catalog.recipientKeys, t));
      var r := CopyAll(next, donor, tables[1..], skip, catalog);
      assert forall x :: x in recipient ==> r[x][..|recipient[x]|] == next[x][..|next[x]|][..|recipient[x]|];
      r
  }

  /** A table the loop skips or never lists keeps its rows. */
  lemma {:induction false} CopyAllLeavesTable(recipient: Schema, donor: Schema, tables: seq<string>,
                                              skip: seq<string>, catalog: Catalog, x: string)
    requires x in recipient
    requires x !in tables || x in skip
    ensures CopyAll(recipient, donor, tables, skip, catalog)[x] == recipient[x]
    decreases |tables|
  {
    if |tables| > 0 {
      var t := tables[0];
      var next :=
        if t in skip then recipient
        else CopyTable(recipient, donor, t, Columns(catalog.recipientColumns, t),
                       Columns(catalog.donorColumns, t), Columns(catalog.recipientKeys, t));
      assert x !in tables[1..] || x in skip;
      CopyAllLeavesTable(next, donor, tables[1..], skip, catalog, x);
    }
  }

  /** A table listed once and not skipped ends as its own iteration left it;
      the iterations for other tables do not touch it. */
  lemma {:induction false} CopyAllTable(recipient: Schema, donor: Schema, tables: seq<string>,
                                        skip: seq<string>, catalog: Catalog, x: string)
    requires x in recipient && x in tables && x !in skip
    requires NoDuplicates(tables)
    ensures CopyAll(recipient, donor, tables, skip, catalog)[x]
         == CopyTable(recipient, donor, x, Columns(catalog.recipientColumns, x),
                      Columns(catalog.donorColumns, x), Columns(catalog.recipientKeys, x))[x]
    decreases |tables|
  {
    var t := tables[0];
    var tail := tables[1..];
    var next :=
      if t in skip then recipient
      else CopyTable(recipient, donor, t, Columns(catalog.recipientColumns, t),
                     Columns(catalog.donorColumns, t), Columns(catalog.recipientKeys, t));
    if t == x {
      assert x !in tail by {
        forall i | 0 <= i < |tail| ensures tail[i] != x {
          assert tail[i] == tables[i + 1];
        }
      }
      CopyAllLeavesTable(next, donor, tail, skip, catalog, x);
    } else {
      assert NoDuplicates(tail) by {
        forall i, j | 0 <= i < |tail| && 0 <= j < |tail| && i != j
          ensures tail[i] != tail[j]
        {
          assert tail[i] == tables[i + 1] && tail[j] == tables[j + 1];
        }
      }
      assert x in tail;
      CopyAllTable(next, donor, tail, skip, catalog, x);
    }
  }

  /** Intersection copy over the whole phase (app.js:112-154): every row
      the phase adds to a table holds only columns that both schemas list
      for that table. */
  lemma {:induction false} CopiedRowsUseCommonColumns(recipient: Schema, donor: Schema, tables: seq<string>,
                                                      skip: seq<string>, catalog: Catalog,
                                                      x: string, i: int, c: string)
    requires x in recipient
    requires |recipient[x]| <= i < |CopyAll(recipient, donor, tables, skip, catalog)[x]|
    requires c in CopyAll(recipient, donor, tables, skip, catalog)[x][i]
    ensures c in Columns(catalog.recipientColumns, x) && c in Columns(catalog.donorColumns, x)
    decreases |tables|
  {
    var t := tables[0];
    var rc := Columns(catalog.recipientColumns, t);
    var dc := Columns(catalog.donorColumns, t);
    var next := if t in skip then recipient else CopyTable(recipient, donor, t, rc, dc, Columns(catalog.recipientKeys, t));
    var r := CopyAll(recipient, donor, tables, skip, catalog);
    assert r == CopyAll(next, donor, tables[1..], skip, catalog);
    if i < |next[x]| {
      // the row was added by this iteration, so it is one of table t's new rows
      assert r[x][i] == next[x][i];
      assert next[x] != recipient[x];
      assert t == x;
      var columns := Matched(rc, dc);
      assert InsertedByName(recipient[x], next[x], donor[x], columns);
      assert c in columns;
    } else {
      CopiedRowsUseCommonColumns(next, donor, tables[1..], skip, catalog, x, i, c);
    }
  }

  /** The primary key survives the copy (app.js:142-152): a table whose
      rows have distinct primary keys before the phase still has distinct
      keys after it, since an INSERT that would repeat one is rejected. */
  lemma {:induction false} CopyAllKeepsKeysDistinct(recipient: Schema, donor: Schema, tables: seq<string>,
                                                    skip: seq<string>, catalog: Catalog, x: string)
    requires x in recipient && |Columns(catalog.recipientKeys, x)| > 0
    requires DistinctKeys(recipient[x], Columns(catalog.recipientKeys, x))
    ensures DistinctKeys(CopyAll(recipient, donor, tables, skip, catalog)[x], Columns(catalog.recipientKeys, x))
    decreases |tables|
  {
    if |tables| > 0 {
      var t := tables[0];
      var rc := Columns(catalog.recipientColumns, t);
      var dc := Columns(catalog.donorColumns, t);
      var next := if t in skip then recipient else CopyTable(recipient, donor, t, rc, dc, Columns(catalog.recipientKeys, t));
      assert DistinctKeys(next[x], Columns(catalog.recipientKeys, x)) by {
        if next[x] != recipient[x] {
          assert t == x && t !in skip;
          var columns := Matched(rc, dc);
          assert next[x] == recipient[x] + ProjectAll(donor[x], columns);
        }
      }
      CopyAllKeepsKeysDistinct(next, donor, tables[1..], skip, catalog, x);
    }
  }
}

=== FILE: migration.dfy ===
/**
 `copyData`: phase 1 (key-space reconciliation) over the keyed tables runs to
 its end before phase 2 (column-intersection copy) starts over all tables,
 both passing over the tables of the skip list. Connections, session flags
 and logging are not modelled.
 */
module Migration {
  import opened Sql
  import opened SchemaCatalog
  import opened KeySpace
  import opened Copier

  /** The tables both phases pass over (app.js:30). */
  const SkipTables: seq<string> := ["module"]

  /** Both schemas after a run. `completed` is false when an UPDATE of
      phase 1 raised: the outer handler then ends the run before phase 2. */
  datatype Outcome = Outcome(recipient: Schema, donor: Schema, completed: bool)

  /** The whole migration (app.js:45-167). The recipient is written only by
      phase 2, which appends rows and never alters or drops one; a run cut
      short in phase 1 leaves the recipient as it was. */
  function CopyData(recipient: Schema, donor: Schema, catalog: Catalog): (m: Outcome)
    ensures m.recipient.Keys == recipient.Keys && m.donor.Keys == donor.Keys
    ensures !m.completed ==> m.recipient == recipient
    ensures forall x :: x in recipient ==>
      |recipient[x]| <= |m.recipient[x]| && m.recipient[x][..|recipient[x]|] == recipient[x]
  {
    match Reconcile(recipient, donor, catalog.keyedTables, SkipTables, catalog.foreignKeys, catalog.donorKeys)
    case Aborted(d) => Outcome(recipient, d, false)
    case Completed(d) => Outcome(CopyAll(recipient, d, catalog.allTables, SkipTables, catalog), d, true)
  }

  /** The run completes when every referencing table exists in the donor
      and no donor id is below 1: then no UPDATE of phase 1 fails. */
  lemma CopyDataCompletes(recipient: Schema, donor: Schema, catalog: Catalog)
    requires ChildTables(catalog.foreignKeys) <= donor.Keys
    requires forall x :: x in donor ==> IdsAboveZero(donor[x])
    ensures CopyData(recipient, donor, catalog).completed
  {
    ReconcileCompletes(recipient, donor, catalog.keyedTables, SkipTables, catalog.foreignKeys, catalog.donorKeys);
  }

  /** The id column of rows laid end to end is the two id columns laid end to end. */
  lemma IdsOfConcat(a: Table, b: Table)
    ensures Ids(a + b) == Ids(a) + Ids(b)
  {
    assert forall i :: 0 <= i < |a + b| ==> Ids(a + b)[i] == (Ids(a) + Ids(b))[i];
  }

  /** Projecting onto a column list that keeps `id` keeps every id. */
  lemma ProjectKeepsIds(t: Table, columns: seq<string>)
    requires IdColumn in columns
    ensures Ids(ProjectAll(t, columns)) == Ids(t)
  {
    forall i | 0 <= i < |t|
      ensures Ids(ProjectAll(t, columns))[i] == Ids(t)[i]
    {
      assert Get(Project(t[i], columns), IdColumn) == Get(t[i], IdColumn);
    }
  }

  /** Two tables with distinct ids, where every id of the second is
      non-NULL and above every id of the first, have distinct ids together. */
  lemma DistinctIdsOfConcat(a: Table, b: Table)
    requires DistinctIds(a) && DistinctIds(b)
    requires forall j :: 0 <= j < |b| ==> Get(b[j], IdColumn).Some?
    requires forall i, j :: 0 <= i < |a| && 0 <= j < |b| && Get(a[i], IdColumn).Some? ==>
      Get(b[j], IdColumn).value > Get(a[i], IdColumn).value
    ensures DistinctIds(a + b)
  {
    var ab := a + b;
    forall i, j | 0 <= i < |ab| && 0 <= j < |ab| && i != j
      ensures Get(ab[i], IdColumn) != Get(ab[j], IdColumn)
    {
      if i < |a| && j >= |a| {
        assert ab[j] == b[j - |a|];
      } else if i >= |a| && j < |a| {
        assert ab[i] == b[i - |a|];
      } else if i >= |a| {
        assert ab[i] == b[i - |a|] && ab[j] == b[j - |a|];
      }
    }
  }

  /** Appending the rows of a donor table whose ids were moved by k,
      projected onto a column list that keeps `id`, to a recipient table
      whose ids are at most k: the ids line up as the recipient's followed by
      the moved ones, each new id is above each old one, and none repeats. */
  lemma AppendMovedKeys(kept: Table, source: Table, moved: Table, columns: seq<string>, k: int)
    requires IdColumn in columns
    requires Ids(moved) == PlusAll(Ids(source), k)
    requires DistinctIds(kept) && DistinctIds(source) && PositiveIds(source)
    requires forall i :: 0 <= i < |kept| && Get(kept[i], IdColumn).Some? ==> Get(kept[i], IdColumn).value <= k
    ensures var after := kept + ProjectAll(moved, columns);
      && Ids(after) == Ids(kept) + PlusAll(Ids(source), k)
      && DistinctIds(after)
      && forall i, j :: 0 <= j < |kept| <= i < |after| && Get(after[j], IdColumn).Some? ==>
        Get(after[i], IdColumn).Some? && Get(after[i], IdColumn).value > Get(after[j], IdColumn).value
  {
    var added := ProjectAll(moved, columns);
    ProjectKeepsIds(moved, columns);
    assert Ids(added) == PlusAll(Ids(source), k);
    assert forall i :: 0 <= i < |added| ==> Get(added[i], IdColumn) == Plus(Get(source[i], IdColumn), k) by {
      forall i | 0 <= i < |added|
        ensures Get(added[i], IdColumn) == Plus(Get(source[i], IdColumn), k)
      {
        assert Get(added[i], IdColumn) == Ids(added)[i];
      }
    }
    DistinctIdsOfConcat(kept, added);
    var after := kept + added;
    IdsOfConcat(kept, added);
    forall i, j | 0 <= j < |kept| <= i < |after| && Get(after[j], IdColumn).Some?
      ensures Get(after[i], IdColumn).Some? && Get(after[i], IdColumn).value > Get(after[j], IdColumn).value
    {
      assert after[i] == added[i - |kept|] && after[j] == kept[j];
    }
  }

  /** What a completed run leaves in one keyed, listed, unskipped table:
      the table as its own phase-2 iteration left it, fed from a donor whose
      ids phase 1 moved by the table's offset. */
  lemma CopyDataTable(recipient: Schema, donor: Schema, catalog: Catalog, table: string)
    requires IdNotForeign(catalog.foreignKeys, table)
    requires NoDuplicates(catalog.keyedTables) && NoDuplicates(catalog.allTables)
    requires table in catalog.keyedTables && table in catalog.allTables && table !in SkipTables
    requires table in recipient && table in donor
    requires CopyData(recipient, donor, catalog).completed
    ensures var d := CopyData(recipient, donor, catalog).donor;
      && table in d
      && Ids(d[table]) == PlusAll(Ids(donor[table]), Offset(recipient, donor, table).value)
      && CopyData(recipient, donor, catalog).recipient[table]
         == CopyTable(recipient, d, table, Columns(catalog.recipientColumns, table),
                      Columns(catalog.donorColumns, table), Columns(catalog.recipientKeys, table))[table]
  {
    var r := Reconcile(recipient, donor, catalog.keyedTables, SkipTables, catalog.foreignKeys, catalog.donorKeys);
    ReconcileShiftsKeys(recipient, donor, catalog.keyedTables, SkipTables, catalog.foreignKeys, catalog.donorKeys, table);
    CopyAllTable(recipient, r.donor, catalog.allTables, SkipTables, catalog, table);
  }

  /** The merged table in full, for the two lemmas below. */
  lemma MergedTable(recipient: Schema, donor: Schema, catalog: Catalog, table: string)
    requires IdNotForeign(catalog.foreignKeys, table)
    requires NoDuplicates(catalog.keyedTables) && NoDuplicates(catalog.allTables)
    requires table in catalog.keyedTables && table in catalog.allTables && table !in SkipTables
    requires table in recipient && table in donor
    requires IdColumn in Columns(catalog.recipientColumns, table)
    requires IdColumn in Columns(catalog.donorColumns, table)
    requires Columns(catalog.recipientKeys, table) == [IdColumn]
    requires DistinctIds(recipient[table]) && DistinctIds(donor[table]) && PositiveIds(donor[table])
    requires CopyData(recipient, donor, catalog).completed
    ensures var after := CopyData(recipient, donor, catalog).recipient[table];
      && Ids(after) == Ids(recipient[table]) + PlusAll(Ids(donor[table]), Offset(recipient, donor, table).value)
      && DistinctIds(after)
      && forall i, j :: 0 <= j < |recipient[table]| <= i < |after| && Get(after[j], IdColumn).Some? ==>
        Get(after[i], IdColumn).Some? && Get(after[i], IdColumn).value > Get(after[j], IdColumn).value
  {
    var m := CopyData(recipient, donor, catalog);
    var k := Offset(recipient, donor, table).value;
    var rc := Columns(catalog.recipientColumns, table);
    var dc := Columns(catalog.donorColumns, table);
    var columns := Matched(rc, dc);
    CopyDataTable(recipient, donor, catalog, table);
    assert IdColumn in columns;
    assert |m.donor[table]| == |donor[table]| by {
      assert |Ids(m.donor[table])| == |PlusAll(Ids(donor[table]), k)|;
    }
    AppendMovedKeys(recipient[table], donor[table], m.donor[table], columns, k);
    KeyIsId(recipient[table] + ProjectAll(m.donor[table], columns));
    assert InsertAccepted(recipient, m.donor, table, columns, [IdColumn]);
    assert m.recipient[table] == recipient[table] + ProjectAll(m.donor[table], columns);
  }

  /** Merged keys, end to end (app.js:65-154), for a keyed table present in
      both schemas with an `id` column on each side, `id` alone as the
      recipient's primary key, an `id` that references nothing, ids distinct
      on each side and positive in the donor, and k its offset
      max(COALESCE(MAX(id), 0)) over both schemas as they were before the
      run: after a completed run the table's ids are its own ids, in order,
      followed by the donor's ids moved by k. The catalog must list each
      table once; nothing is required of other tables. */
  lemma MergedKeys(recipient: Schema, donor: Schema, catalog: Catalog, table: string, k: int)
    requires IdNotForeign(catalog.foreignKeys, table)
    requires NoDuplicates(catalog.keyedTables) && NoDuplicates(catalog.allTables)
    requires table in catalog.keyedTables && table in catalog.allTables && table !in SkipTables
    requires table in recipient && table in donor
    requires IdColumn in Columns(catalog.recipientColumns, table)
    requires IdColumn in Columns(catalog.donorColumns, table)
    requires Columns(catalog.recipientKeys, table) == [IdColumn]
    requires DistinctIds(recipient[table]) && DistinctIds(donor[table]) && PositiveIds(donor[table])
    requires CopyData(recipient, donor, catalog).completed
    requires Offset(recipient, donor, table) == Some(k)
    ensures Ids(CopyData(recipient, donor, catalog).recipient[table])
         == Ids(recipient[table]) + PlusAll(Ids(donor[table]), k)
  {
    MergedTable(recipient, donor, catalog, table);
  }

  /** Under the same conditions, every id the run adds is above every id
      the table had, so the merged table has no id twice. */
  lemma MergedKeysDistinct(recipient: Schema, donor: Schema, catalog: Catalog, table: string)
    requires IdNotForeign(catalog.foreignKeys, table)
    requires NoDuplicates(catalog.keyedTables) && NoDuplicates(catalog.allTables)
    requires table in catalog.keyedTables && table in catalog.allTables && table !in SkipTables
    requires table in recipient && table in donor
    requires IdColumn in Columns(catalog.recipientColumns, table)
    requires IdColumn in Columns(catalog.donorColumns, table)
    requires Columns(catalog.recipientKeys, table) == [IdColumn]
    requires DistinctIds(recipient[table]) && DistinctIds(donor[table]) && PositiveIds(donor[table])
    requires CopyData(recipient, donor, catalog).completed
    ensures var after := CopyData(recipient, donor, catalog).recipient[table];
      && DistinctIds(after)
      && forall i, j :: 0 <= j < |recipient[table]| <= i < |after| && Get(after[j], IdColumn).Some? ==>
        Get(after[i], IdColumn).Some? && Get(after[i], IdColumn).value > Get(after[j], IdColumn).value
  {
    MergedTable(recipient, donor, catalog, table);
  }

  /** Foreign keys inside the donor survive the run (app.js:91-100): a
      child cell that pointed at a parent's `id` before still points at it,
      given the link's own column is not an `id`, the parent's `id`
      references nothing, and no other edge names the link's column. */
  lemma ForeignKeysSurvive(recipient: Schema, donor: Schema, catalog: Catalog, e: ForeignKey, i: int, j: int)
    requires e.childColumn != IdColumn && IdNotForeign(catalog.foreignKeys, e.parentTable)
    requires SingleEdge(catalog.foreignKeys, e.childTable, e.childColumn)
    requires e in catalog.foreignKeys && e.parentColumn == IdColumn
    requires CopyData(recipient, donor, catalog).completed
    requires Linked(donor, e, i, j)
    ensures Linked(CopyData(recipient, donor, catalog).donor, e, i, j)
  {
    ReconcilePreservesLinks(recipient, donor, catalog.keyedTables, SkipTables, catalog.foreignKeys, catalog.donorKeys, e, i, j);
  }

  /** Skip set (app.js:30, 66-69, 114-117): a skipped table is never
      copied, so the recipient's copy is unchanged; its donor rows are
      unchanged too unless it holds a column referencing a processed table,
      whose cascade still reaches it. */
  lemma SkippedTablesUntouched(recipient: Schema, donor: Schema, catalog: Catalog, table: string)
    requires table in SkipTables
    ensures table in recipient ==> CopyData(recipient, donor, catalog).recipient[table] == recipient[table]
    ensures table in donor && table !in ChildTables(catalog.foreignKeys) ==>
      CopyData(recipient, donor, catalog).donor[table] == donor[table]
  {
    var r := Reconcile(recipient, donor, catalog.keyedTables, SkipTables, catalog.foreignKeys, catalog.donorKeys);
    if table in donor && table !in ChildTables(catalog.foreignKeys) {
      ReconcileLeavesTableAlone(recipient, donor, catalog.keyedTables, SkipTables, catalog.foreignKeys, catalog.donorKeys, table);
    }
    if table in recipient && r.Completed? {
      CopyAllLeavesTable(recipient, r.donor, catalog.allTables, SkipTables, catalog, table);
    }
  }
}

=== FILE: reconcile.dfy ===
/**
 Phase 1 of `copyData`: key-space reconciliation. For each keyed table that
 is not skipped, the offset `max(COALESCE(MAX(id), 0))` over both schemas is
 added to every donor id of the table and to every donor column that
 references the table. The recipient is read, never written.
 */
module KeySpace {
  import opened Sql
  import opened SchemaCatalog

  /** The donor after a run of updates. `Aborted` is a failing UPDATE that
      escapes every per-table handler: the updates issued before it stay
      applied and nothing after it runs. */
  datatype Shift = Completed(donor: Schema) | Aborted(donor: Schema)

  /** The offset for `table`, or None when reading either maximum fails
      because the table is missing on that side (the table is then logged
      and passed over). The offset bounds every id on both sides and is
      either 0 or one of those ids. */
  function Offset(recipient: Schema, donor: Schema, table: string): (r: Option<int>)
    ensures r.Some? <==> table in recipient && table in donor
    ensures r.Some? ==>
      (forall i :: 0 <= i < |recipient[table]| && Get(recipient[table][i], IdColumn).Some? ==>
         Get(recipient[table][i], IdColumn).value <= r.value) &&
      (forall i :: 0 <= i < |donor[table]| && Get(donor[table][i], IdColumn).Some? ==>
         Get(donor[table][i], IdColumn).value <= r.value)
    ensures r.Some? ==>
      r.value == 0 ||
      (exists i :: 0 <= i < |recipient[table]| && Get(recipient[table][i], IdColumn) == r) ||
      (exists i :: 0 <= i < |donor[table]| && Get(donor[table][i], IdColumn) == r)
    ensures r.Some? ==>
      r.value >= MaxId(recipient[table]) && r.value >= MaxId(donor[table]) &&
      (r.value == MaxId(recipient[table]) || r.value == MaxId(donor[table]))
  {
    if table in recipient && table in donor then
      var a := MaxId(recipient[table]);
      var b := MaxId(donor[table]);
      Some(if a >= b then a else b)
    else None
  }

  /** `UPDATE table SET id = id + k` on the donor; ShiftKeysCell states
      its effect on each cell. */
  function ShiftKeys(donor: Schema, table: string, k: int): (r: Schema)
    requires table in donor
    ensures r.Keys == donor.Keys
    ensures forall x :: x in donor && x != table ==> r[x] == donor[x]
    ensures |r[table]| == |donor[table]|
  {
    donor[table := ShiftColumn(donor[table], IdColumn, k)]
  }

  /** Whether `UPDATE table SET id = id + k` meets a duplicate primary key
      part-way, given the table's primary-key columns `key`. The engine
      visits the rows in ascending key order and checks the key after each
      row. A row moved by k > 0 keeps its other key cells and gets a larger
      id, so a row holding the key it moves to comes later in that order and
      has not moved yet; two moved rows never meet while the keys are
      distinct. So the UPDATE fails exactly when some row, moved, takes the
      key of a row as it was. With k <= 0 a row moves onto keys that have
      already moved away, and a NULL id does not move. */
  predicate ShiftCollides(t: Table, key: seq<string>, k: int) {
    && k > 0 && IdColumn in key
    && exists i, j :: 0 <= i < |t| && 0 <= j < |t| && Get(t[i], IdColumn).Some? &&
         SameKey(ShiftRow(t[i], IdColumn, k), t[j], key)
  }

  /** The foreign-key UPDATEs for one referenced table, in catalog order.
      An UPDATE of a table the donor lacks raises and aborts. */
  function Cascade(donor: Schema, edges: seq<ForeignKey>, k: int): (r: Shift)
    ensures r.donor.Keys == donor.Keys
    ensures forall x :: x in donor ==> |r.donor[x]| == |donor[x]|
    ensures r.Aborted? <==> !(ChildTables(edges) <= donor.Keys)
    decreases |edges|
  {
    if |edges| == 0 then Completed(donor)
    else
      var e := edges[0];
      if e.childTable !in donor then Aborted(donor)
      else
        var next := donor[e.childTable := ShiftColumn(donor[e.childTable], e.childColumn, k)];
        assert ChildTables(edges) == {e.childTable} + ChildTables(edges[1..]);
        Cascade(next, edges[1..], k)
  }

  /** The total amount the cascade adds to column `column` of `table`:
      k once for every edge naming that column. */
  function CascadeShift(edges: seq<ForeignKey>, k: int, table: string, column: string): int
    decreases |edges|
  {
    if |edges| == 0 then 0
    else
      (if edges[0].childTable == table && edges[0].childColumn == column then k else 0)
      + CascadeShift(edges[1..], k, table, column)
  }

  /** One iteration of the phase-1 loop for a table not in the skip list;
      `keys` holds the donor's primary-key columns per table. A failing id
      UPDATE is rolled back as a statement and aborts with the donor as it
      was. */
  function ReconcileTable(recipient: Schema, donor: Schema, fks: seq<ForeignKey>,
                          keys: map<string, seq<string>>, table: string): (r: Shift)
    ensures r.donor.Keys == donor.Keys
    ensures forall x :: x in donor ==> |r.donor[x]| == |donor[x]|
    ensures Offset(recipient, donor, table).None? ==> r == Completed(donor)
    ensures r.Aborted? <==>
      && table in recipient && table in donor
      && (|| ShiftCollides(donor[table], Columns(keys, table), Offset(recipient, donor, table).value)
          || !(ChildTables(ReferencesTo(fks, table)) <= donor.Keys))
    ensures r.Aborted? && ShiftCollides(donor[table], Columns(keys, table), Offset(recipient, donor, table).value)
      ==> r.donor == donor
  {
    match Offset(recipient, donor, table)
    case None => Completed(donor)
    case Some(k) =>
      if ShiftCollides(donor[table], Columns(keys, table), k) then Aborted(donor)
      else
        var shifted := ShiftKeys(donor, table, k);
        Cascade(shifted, ReferencesTo(fks, table), k)
  }

  /** The whole phase-1 loop over the keyed tables, in order. */
  function Reconcile(recipient: Schema, donor: Schema, keyed: seq<string>, skip: seq<string>,
                     fks: seq<ForeignKey>, keys: map<string, seq<string>>): (r: Shift)
    ensures r.donor.Keys == donor.Keys
    ensures forall x :: x in donor ==> |r.donor[x]| == |donor[x]|
    decreases |keyed|
  {
    if |keyed| == 0 then Completed(donor)
    else if keyed[0] in skip then Reconcile(recipient, donor, keyed[1..], skip, fks, keys)
    else
      match ReconcileTable(recipient, donor, fks, keys, keyed[0])
      case Aborted(d) => Aborted(d)
      case Completed(d) => Reconcile(recipient, d, keyed[1..], skip, fks, keys)
  }

  /** A cascade leaves alone every table that holds no referencing column. */
  lemma {:induction false} CascadeLeavesOthers(donor: Schema, edges: seq<ForeignKey>, k: int, x: string)
    requires x in donor && x !in ChildTables(edges)
    ensures Cascade(donor, edges, k).donor[x] == donor[x]
    decreases |edges|
  {
    if |edges| > 0 && edges[0].childTable in donor {
      var e := edges[0];
      var next := donor[e.childTable := ShiftColumn(donor[e.childTable], e.childColumn, k)];
      assert ChildTables(edges) == {e.childTable} + ChildTables(edges[1..]);
      CascadeLeavesOthers(next, edges[1..], k, x);
    }
  }

  /** An iteration for `table` leaves alone every other table that holds no
      column referencing it. */
  lemma ReconcileTableLeavesOthers(recipient: Schema, donor: Schema, fks: seq<ForeignKey>,
                                   keys: map<string, seq<string>>, table: string, x: string)
    requires x in donor && x != table && x !in ChildTables(ReferencesTo(fks, table))
    ensures ReconcileTable(recipient, donor, fks, keys, table).donor[x] == donor[x]
  {
    if Offset(recipient, donor, table).Some? {
      var k := Offset(recipient, donor, table).value;
      if !ShiftCollides(donor[table], Columns(keys, table), k) {
        CascadeLeavesOthers(ShiftKeys(donor, table, k), ReferencesTo(fks, table), k, x);
      }
    }
  }

  /** The amount one phase-1 iteration for `table` adds to column `column`
      of table `x`: the cascade's share, plus k on the table's own ids. */
  function Delta(fks: seq<ForeignKey>, table: string, k: int, x: string, column: string): int {
    CascadeShift(ReferencesTo(fks, table), k, x, column) + OwnShift(table, k, x, column)
  }

  /** What the id UPDATE of `table` adds to column `column` of table `x`. */
  function OwnShift(table: string, k: int, x: string, column: string): int {
    if x == table && column == IdColumn then k else 0
  }

  /** A child cell that holds the same non-NULL value as the cell it
      references: row i of the child table points at row j of the parent. */
  predicate Linked(s: Schema, e: ForeignKey, i: int, j: int) {
    && e.childTable in s && e.parentTable in s
    && 0 <= i < |s[e.childTable]| && 0 <= j < |s[e.parentTable]|
    && Get(s[e.childTable][i], e.childColumn).Some?
    && Get(s[e.childTable][i], e.childColumn) == Get(s[e.parentTable][j], e.parentColumn)
  }

  /** A completed cascade adds to each cell exactly k per edge naming its column. */
  lemma {:induction false} CascadeEffect(donor: Schema, edges: seq<ForeignKey>, k: int, x: string, i: int, c: string)
    requires Cascade(donor, edges, k).Completed?
    requires x in donor && 0 <= i < |donor[x]|
    ensures Get(Cascade(donor, edges, k).donor[x][i], c) == Plus(Get(donor[x][i], c), CascadeShift(edges, k, x, c))
    decreases |edges|
  {
    if |edges| > 0 {
      var e := edges[0];
      var next := donor[e.childTable := ShiftColumn(donor[e.childTable], e.childColumn, k)];
      assert Cascade(donor, edges, k) == Cascade(next, edges[1..], k);
      CascadeEffect(next, edges[1..], k, x, i, c);
      var own := if x == e.childTable && c == e.childColumn then k else 0;
      assert Get(next[x][i], c) == Plus(Get(donor[x][i], c), own);
      PlusTwice(Get(donor[x][i], c), own, CascadeShift(edges[1..], k, x, c));
    } else {
      assert Plus(Get(donor[x][i], c), 0) == Get(donor[x][i], c);
    }
  }

  /** A column no edge names receives nothing from the cascade. */
  lemma {:induction false} UnlistedColumnUnshifted(edges: seq<ForeignKey>, k: int, x: string, column: string)
    requires forall e :: e in edges ==> e.childTable != x || e.childColumn != column
    ensures CascadeShift(edges, k, x, column) == 0
    decreases |edges|
  {
    if |edges| > 0 {
      assert edges[0] in edges;
      assert forall e :: e in edges[1..] ==> e in edges;
      UnlistedColumnUnshifted(edges[1..], k, x, column);
    }
  }

  /** When the column of edge e is in no other edge, the cascade for
      `parent` shifts it by k exactly when e references `parent`. */
  lemma {:induction false} ForeignColumnShift(fks: seq<ForeignKey>, parent: string, k: int, e: ForeignKey)
    requires e in fks
    requires SingleEdge(fks, e.childTable, e.childColumn)
    ensures CascadeShift(ReferencesTo(fks, parent), k, e.childTable, e.childColumn)
         == if e.parentTable == parent then k else 0
    decreases |fks|
  {
    var tail := fks[1..];
    var refs := ReferencesTo(fks, parent);
    assert forall f :: f in tail ==> f in fks;
    assert SingleEdge(tail, e.childTable, e.childColumn) by {
      forall i, j | 0 <= i < |tail| && 0 <= j < |tail| &&
                    tail[i].childTable == e.childTable && tail[i].childColumn == e.childColumn &&
                    tail[j].childTable == e.childTable && tail[j].childColumn == e.childColumn
        ensures i == j
      {
        assert tail[i] == fks[i + 1] && tail[j] == fks[j + 1];
      }
    }
    if fks[0] == e {
      forall f | f in ReferencesTo(tail, parent)
        ensures f.childTable != e.childTable || f.childColumn != e.childColumn
      {
        var j :| 0 <= j < |tail| && tail[j] == f;
        assert fks[j + 1] == f;
        assert fks[0] == e;
      }
      UnlistedColumnUnshifted(ReferencesTo(tail, parent), k, e.childTable, e.childColumn);
      if e.parentTable == parent {
        assert refs == [e] + ReferencesTo(tail, parent);
        assert refs[1..] == ReferencesTo(tail, parent);
      }
    } else {
      var j :| 0 <= j < |fks| && fks[j] == e;
      assert j != 0;
      assert e in tail by { assert tail[j - 1] == e; }
      ForeignColumnShift(tail, parent, k, e);
      if fks[0].parentTable == parent {
        assert refs == [fks[0]] + ReferencesTo(tail, parent);
        assert refs[1..] == ReferencesTo(tail, parent);
      }
    }
  }


  /** Per-table cascade (app.js:89-100): a completed iteration adds the
      table's offset to its own ids and to every donor column that references
      it, once per edge; every other cell, the NULLs included, keeps its value. */
  lemma ReconcileTableEffect(recipient: Schema, donor: Schema, fks: seq<ForeignKey>,
                             keys: map<string, seq<string>>, table: string, x: string, i: int, c: string)
    requires ReconcileTable(recipient, donor, fks, keys, table).Completed?
    requires Offset(recipient, donor, table).Some?
    requires x in donor && 0 <= i < |donor[x]|
    ensures Get(ReconcileTable(recipient, donor, fks, keys, table).donor[x][i], c)
        == Plus(Get(donor[x][i], c), Delta(fks, table, Offset(recipient, donor, table).value, x, c))
  {
    var k := Offset(recipient, donor, table).value;
    assert ReconcileTable(recipient, donor, fks, keys, table)
        == Cascade(ShiftKeys(donor, table, k), ReferencesTo(fks, table), k);
    IterationEffect(donor, fks, table, k, x, i, c);
  }

  /** The id UPDATE by k followed by the foreign-key UPDATEs by k, when they
      all complete: each cell gains k if it is the table's own id, plus k for
      each edge naming its column; NULL stays NULL. */
  lemma IterationEffect(donor: Schema, fks: seq<ForeignKey>, table: string, k: int, x: string, i: int, c: string)
    requires table in donor
    requires Cascade(ShiftKeys(donor, table, k), ReferencesTo(fks, table), k).Completed?
    requires x in donor && 0 <= i < |donor[x]|
    ensures Get(Cascade(ShiftKeys(donor, table, k), ReferencesTo(fks, table), k).donor[x][i], c)
        == Plus(Get(donor[x][i], c), Delta(fks, table, k, x, c))
  {
    var shifted := ShiftKeys(donor, table, k);
    var refs := ReferencesTo(fks, table);
    CascadeEffect(shifted, refs, k, x, i, c);
    ShiftKeysCell(donor, table, k, x, i, c);
    PlusTwice(Get(donor[x][i], c), OwnShift(table, k, x, c), CascadeShift(refs, k, x, c));
  }

  /** Id shift (app.js:89): the id UPDATE moves every id of its table by k,
      keeps NULL ids NULL, and leaves every other cell of the donor alone. */
  lemma ShiftKeysCell(donor: Schema, table: string, k: int, x: string, i: int, c: string)
    requires table in donor
    requires x in donor && 0 <= i < |donor[x]|
    ensures Get(ShiftKeys(donor, table, k)[x][i], c) == Plus(Get(donor[x][i], c), OwnShift(table, k, x, c))
  {
    if x != table {
    } else if c == IdColumn {
    } else {
    }
  }

  /** A completed cascade by 0 leaves the donor as it was. */
  lemma {:induction false} CascadeByZero(donor: Schema, edges: seq<ForeignKey>)
    ensures Cascade(donor, edges, 0).donor == donor
    decreases |edges|
  {
    if |edges| > 0 && edges[0].childTable in donor {
      var e := edges[0];
      ShiftColumnByZero(donor[e.childTable], e.childColumn);
      assert donor[e.childTable := ShiftColumn(donor[e.childTable], e.childColumn, 0)] == donor;
      CascadeByZero(donor, edges[1..]);
    }
  }

  /** Zero offset (app.js:83-89): when both maxima are 0 the iteration only
      logs, and the shift and cascade it still issues change no cell. */
  lemma ZeroOffsetChangesNothing(recipient: Schema, donor: Schema, fks: seq<ForeignKey>,
                                  keys: map<string, seq<string>>, table: string)
    requires Offset(recipient, donor, table) == Some(0)
    ensures ReconcileTable(recipient, donor, fks, keys, table).donor == donor
  {
    ShiftColumnByZero(donor[table], IdColumn);
    assert ShiftKeys(donor, table, 0) == donor;
    CascadeByZero(donor, ReferencesTo(fks, table));
  }

  /** Disjointness (app.js:76-89): once a table's positive donor ids are
      shifted by its offset, each is above every recipient id of the table,
      and distinct donor ids stay distinct. */
  lemma ShiftedKeysClearRecipient(recipient: Schema, donor: Schema, table: string)
    requires table in recipient && table in donor
    requires PositiveIds(donor[table])
    ensures var k := Offset(recipient, donor, table).value;
      var moved := ShiftColumn(donor[table], IdColumn, k);
      forall i, j ::
        (0 <= i < |moved| && 0 <= j < |recipient[table]| && Get(recipient[table][j], IdColumn).Some?) ==>
        Get(moved[i], IdColumn).Some? &&
        Get(moved[i], IdColumn).value > Get(recipient[table][j], IdColumn).value
    ensures DistinctIds(donor[table]) ==>
      DistinctIds(ShiftColumn(donor[table], IdColumn, Offset(recipient, donor, table).value))
  {
    var k := Offset(recipient, donor, table).value;
    if DistinctIds(donor[table]) {
      ShiftKeepsIdsDistinct(donor[table], k);
    }
  }

  /** The id UPDATE meets no duplicate key part-way (app.js:89) when no
      donor id is below 1: each moved id is then above every id the table
      holds, whatever the primary key's other columns. */
  lemma MovedKeysClearUnmoved(recipient: Schema, donor: Schema, table: string, key: seq<string>)
    requires table in recipient && table in donor
    requires IdsAboveZero(donor[table])
    ensures !ShiftCollides(donor[table], key, Offset(recipient, donor, table).value)
  {
  }

  /** The cascade adds no negative amount when k is not negative. */
  lemma {:induction false} CascadeShiftNonNegative(edges: seq<ForeignKey>, k: int, x: string, column: string)
    requires k >= 0
    ensures CascadeShift(edges, k, x, column) >= 0
    decreases |edges|
  {
    if |edges| > 0 {
      CascadeShiftNonNegative(edges[1..], k, x, column);
    }
  }

  /** An iteration over a donor with no id below 1 whose referencing tables
      all exist completes, and leaves no id below 1: the offset is not
      negative, so every id only grows. */
  lemma IterationKeepsIdsAboveZero(recipient: Schema, donor: Schema, fks: seq<ForeignKey>,
                                   keys: map<string, seq<string>>, table: string)
    requires forall x :: x in donor ==> IdsAboveZero(donor[x])
    requires ChildTables(ReferencesTo(fks, table)) <= donor.Keys
    ensures ReconcileTable(recipient, donor, fks, keys, table).Completed?
    ensures forall x :: x in donor ==> IdsAboveZero(ReconcileTable(recipient, donor, fks, keys, table).donor[x])
  {
    if Offset(recipient, donor, table).Some? {
      var k := Offset(recipient, donor, table).value;
      MovedKeysClearUnmoved(recipient, donor, table, Columns(keys, table));
      var d := ReconcileTable(recipient, donor, fks, keys, table).donor;
      assert k >= 0 by {
        assert MaxId(donor[table]) >= 0;
      }
      forall x, i | x in donor && 0 <= i < |d[x]| && Get(d[x][i], IdColumn).Some?
        ensures Get(d[x][i], IdColumn).value >= 1
      {
        ReconcileTableEffect(recipient, donor, fks, keys, table, x, i, IdColumn);
        CascadeShiftNonNegative(ReferencesTo(fks, table), k, x, IdColumn);
      }
    }
  }

  /** Phase 1 completes when every referencing table exists in the donor and
      no donor id is below 1: no id UPDATE then meets a duplicate key. */
  lemma {:induction false} ReconcileCompletes(recipient: Schema, donor: Schema, keyed: seq<string>,
                                              skip: seq<string>, fks: seq<ForeignKey>,
                                              keys: map<string, seq<string>>)
    requires ChildTables(fks) <= donor.Keys
    requires forall x :: x in donor ==> IdsAboveZero(donor[x])
    ensures Reconcile(recipient, donor, keyed, skip, fks, keys).Completed?
    decreases |keyed|
  {
    if |keyed| > 0 {
      if keyed[0] in skip {
        ReconcileCompletes(recipient, donor, keyed[1..], skip, fks, keys);
      } else {
        assert ChildTables(ReferencesTo(fks, keyed[0])) <= ChildTables(fks);
        IterationKeepsIdsAboveZero(recipient, donor, fks, keys, keyed[0]);
        var d := ReconcileTable(recipient, donor, fks, keys, keyed[0]).donor;
        ReconcileCompletes(recipient, d, keyed[1..], skip, fks, keys);
      }
    }
  }

  /** An iteration keeps every link of an edge that references its parent's
      `id`: the child column and the parent's ids move by the same amount,
      provided the link's own column is not an `id`, the parent's `id`
      references nothing, and no other edge names the link's column. */
  lemma ReconcileTablePreservesLinks(recipient: Schema, donor: Schema, fks: seq<ForeignKey>,
                                     keys: map<string, seq<string>>, table: string,
                                     e: ForeignKey, i: int, j: int)
    requires e.childColumn != IdColumn && IdNotForeign(fks, e.parentTable)
    requires SingleEdge(fks, e.childTable, e.childColumn)
    requires e in fks && e.parentColumn == IdColumn
    requires ReconcileTable(recipient, donor, fks, keys, table).Completed?
    requires Linked(donor, e, i, j)
    ensures Linked(ReconcileTable(recipient, donor, fks, keys, table).donor, e, i, j)
  {
    if Offset(recipient, donor, table).Some? {
      var k := Offset(recipient, donor, table).value;
      ForeignColumnShift(fks, table, k, e);
      UnlistedColumnUnshifted(ReferencesTo(fks, table), k, e.parentTable, IdColumn);
      assert Delta(fks, table, k, e.childTable, e.childColumn) == Delta(fks, table, k, e.parentTable, IdColumn);
      ReconcileTableEffect(recipient, donor, fks, keys, table, e.childTable, i, e.childColumn);
      ReconcileTableEffect(recipient, donor, fks, keys, table, e.parentTable, j, IdColumn);
    }
  }

  /** Foreign keys inside the donor survive phase 1 (app.js:65-101): every
      child cell that equalled the parent's `id` before still equals it. */
  lemma {:induction false} ReconcilePreservesLinks(recipient: Schema, donor: Schema, keyed: seq<string>,
                                                   skip: seq<string>, fks: seq<ForeignKey>,
                                                   keys: map<string, seq<string>>,
                                                   e: ForeignKey, i: int, j: int)
    requires e.childColumn != IdColumn && IdNotForeign(fks, e.parentTable)
    requires SingleEdge(fks, e.childTable, e.childColumn)
    requires e in fks && e.parentColumn == IdColumn
    requires Reconcile(recipient, donor, keyed, skip, fks, keys).Completed?
    requires Linked(donor, e, i, j)
    ensures Linked(Reconcile(recipient, donor, keyed, skip, fks, keys).donor, e, i, j)
    decreases |keyed|
  {
    if |keyed| > 0 {
      if keyed[0] in skip {
        ReconcilePreservesLinks(recipient, donor, keyed[1..], skip, fks, keys, e, i, j);
      } else {
        var step := ReconcileTable(recipient, donor, fks, keys, keyed[0]);
        ReconcileTablePreservesLinks(recipient, donor, fks, keys, keyed[0], e, i, j);
        ReconcilePreservesLinks(recipient, step.donor, keyed[1..], skip, fks, keys, e, i, j);
      }
    }
  }

  /** The id cell of a row after one iteration, for a table whose `id`
      references nothing: only the table's own id UPDATE moves it. */
  lemma IdCellAfterIteration(recipient: Schema, donor: Schema, fks: seq<ForeignKey>,
                             keys: map<string, seq<string>>, table: string, x: string, i: int)
    requires IdNotForeign(fks, x)
    requires ReconcileTable(recipient, donor, fks, keys, table).Completed?
    requires Offset(recipient, donor, table).Some?
    requires x in donor && 0 <= i < |donor[x]|
    ensures Get(ReconcileTable(recipient, donor, fks, keys, table).donor[x][i], IdColumn)
        == Plus(Get(donor[x][i], IdColumn), OwnShift(table, Offset(recipient, donor, table).value, x, IdColumn))
  {
    var k := Offset(recipient, donor, table).value;
    UnlistedColumnUnshifted(ReferencesTo(fks, table), k, x, IdColumn);
    assert Delta(fks, table, k, x, IdColumn) == OwnShift(table, k, x, IdColumn);
    ReconcileTableEffect(recipient, donor, fks, keys, table, x, i, IdColumn);
  }

  /** One iteration moves the ids of its own table by the offset and leaves
      alone the ids of any table whose `id` references nothing. */
  lemma IdsAfterIteration(recipient: Schema, donor: Schema, fks: seq<ForeignKey>,
                          keys: map<string, seq<string>>, table: string, x: string)
    requires IdNotForeign(fks, x)
    requires ReconcileTable(recipient, donor, fks, keys, table).Completed?
    requires x in donor
    ensures Ids(ReconcileTable(recipient, donor, fks, keys, table).donor[x]) ==
      if x == table && table in recipient
      then PlusAll(Ids(donor[x]), Offset(recipient, donor, table).value)
      else Ids(donor[x])
  {
    var d := ReconcileTable(recipient, donor, fks, keys, table).donor;
    if Offset(recipient, donor, table).Some? {
      var k := Offset(recipient, donor, table).value;
      var expected := if x == table then PlusAll(Ids(donor[x]), k) else Ids(donor[x]);
      forall i | 0 <= i < |donor[x]|
        ensures Ids(d[x])[i] == expected[i]
      {
        IdCellAfterIteration(recipient, donor, fks, keys, table, x, i);
      }
      assert Ids(d[x]) == expected;
    }
  }

  /** Id shift over the whole phase (app.js:65-89): a keyed, unskipped
      table present in both schemas, whose `id` references nothing, ends
      with every donor id moved by the offset computed from the schemas as
      they were before the phase; otherwise the table keeps its ids. */
  lemma {:induction false} ReconcileShiftsKeys(recipient: Schema, donor: Schema, keyed: seq<string>,
                                               skip: seq<string>, fks: seq<ForeignKey>,
                                               keys: map<string, seq<string>>, table: string)
    requires IdNotForeign(fks, table)
    requires NoDuplicates(keyed)
    requires table in donor
    requires Reconcile(recipient, donor, keyed, skip, fks, keys).Completed?
    ensures Ids(Reconcile(recipient, donor, keyed, skip, fks, keys).donor[table]) ==
      if table in keyed && table !in skip && table in recipient
      then PlusAll(Ids(donor[table]), Offset(recipient, donor, table).value)
      else Ids(donor[table])
    decreases |keyed|
  {
    if |keyed| > 0 {
      var tail := keyed[1..];
      assert NoDuplicates(tail) by {
        forall i, j | 0 <= i < |tail| && 0 <= j < |tail| && i != j
          ensures tail[i] != tail[j]
        {
          assert tail[i] == keyed[i + 1] && tail[j] == keyed[j + 1];
        }
      }
      assert keyed[0] !in tail by {
        forall i | 0 <= i < |tail| ensures tail[i] != keyed[0] {
          assert tail[i] == keyed[i + 1];
        }
      }
      assert forall x :: x in keyed <==> x == keyed[0] || x in tail;
      if keyed[0] in skip {
        ReconcileShiftsKeys(recipient, donor, tail, skip, fks, keys, table);
      } else {
        var d := ReconcileTable(recipient, donor, fks, keys, keyed[0]).donor;
        IdsAfterIteration(recipient, donor, fks, keys, keyed[0], table);
        ReconcileShiftsKeys(recipient, d, tail, skip, fks, keys, table);
        if table != keyed[0] {
          assert Offset(recipient, d, table) == Offset(recipient, donor, table);
        }
      }
    }
  }

  /** A table the phase never processes and no edge references from keeps
      every row, whether or not the phase completes. */
  lemma {:induction false} ReconcileLeavesTableAlone(recipient: Schema, donor: Schema, keyed: seq<string>,
                                                     skip: seq<string>, fks: seq<ForeignKey>,
                                                     keys: map<string, seq<string>>, table: string)
    requires table in donor
    requires table !in keyed || table in skip
    requires table !in ChildTables(fks)
    ensures Reconcile(recipient, donor, keyed, skip, fks, keys).donor[table] == donor[table]
    decreases |keyed|
  {
    if |keyed| > 0 {
      assert table !in keyed[1..] || table in skip;
      if keyed[0] in skip {
        ReconcileLeavesTableAlone(recipient, donor, keyed[1..], skip, fks, keys, table);
      } else {
        assert table !in ChildTables(ReferencesTo(fks, keyed[0]));
        ReconcileTableLeavesOthers(recipient, donor, fks, keys, keyed[0], table);
        match ReconcileTable(recipient, donor, fks, keys, keyed[0])
        case Aborted(d) =>
        case Completed(d) =>
          ReconcileLeavesTableAlone(recipient, d, keyed[1..], skip, fks, keys, table);
      }
    }
  }

  /** With no donor id below 1, the offset is not negative. */
  lemma OffsetNonNegative(recipient: Schema, donor: Schema, table: string)
    requires table in recipient && table in donor
    requires IdsAboveZero(donor[table])
    ensures Offset(recipient, donor, table).value >= 0
  {
  }
}

=== FILE: scenarios.dfy ===
/**
 Worked instances of the general lemmas: the orders example with one
 order line, and the inputs on which phase 1 fails or breaks a link.
 */
module Scenarios {
  import opened Sql
  import opened SchemaCatalog
  import opened KeySpace
  import opened Copier
  import opened Migration

  function Keyed(id: int): Row {
    map[IdColumn := Some(id)]
  }

  /** An order line pointing at an order. */
  function Item(order: int): Row {
    map["order_id" := Some(order)]
  }

  const ItemOrder: ForeignKey := ForeignKey("order_items", "order_id", "orders", IdColumn)

  /** Recipient `orders` with ids 1 and 2 and no order lines; donor `orders`
      with ids 1, 2, 3 and one order line for order 1. `orders` is keyed by
      `id`; `order_items` has no primary key and references `orders`. */
  const OrdersRecipient: Schema := map["orders" := [Keyed(1), Keyed(2)], "order_items" := []]
  const OrdersDonor: Schema := map["orders" := [Keyed(1), Keyed(2), Keyed(3)], "order_items" := [Item(1)]]
  const OrdersCatalog: Catalog :=
    Catalog(["orders"], ["order_items", "orders"], [ItemOrder],
            map["orders" := [IdColumn], "order_items" := ["order_id"]],
            map["orders" := [IdColumn], "order_items" := ["order_id"]],
            map["orders" := [IdColumn]], map["orders" := [IdColumn]])

  /** The offset for the orders example is 3: MAX(id) is 2 on one side and 3 on the other. */
  lemma OrdersOffset()
    ensures Offset(OrdersRecipient, OrdersDonor, "orders") == Some(3)
  {
    assert Ids(OrdersRecipient["orders"]) == [Some(1), Some(2)];
    assert Ids(OrdersDonor["orders"]) == [Some(1), Some(2), Some(3)];
    assert MaxId(OrdersRecipient["orders"]) == 2;
    assert MaxId(OrdersDonor["orders"]) == 3;
  }

  /** The orders run completes: the referencing table exists and no id is below 1. */
  lemma OrdersCompletes()
    ensures CopyData(OrdersRecipient, OrdersDonor, OrdersCatalog).completed
  {
    assert ChildTables(OrdersCatalog.foreignKeys) == {"order_items"};
    assert Get(Item(1), IdColumn) == None;
    CopyDataCompletes(OrdersRecipient, OrdersDonor, OrdersCatalog);
  }

  /** The orders ids are distinct on both sides and positive in the donor. */
  lemma OrdersKeysWellFormed()
    ensures DistinctIds(OrdersRecipient["orders"]) && DistinctIds(OrdersDonor["orders"])
    ensures PositiveIds(OrdersDonor["orders"])
  {
    assert Ids(OrdersRecipient["orders"]) == [Some(1), Some(2)];
    assert Ids(OrdersDonor["orders"]) == [Some(1), Some(2), Some(3)];
  }

  /** What the merged-keys lemma asks of the orders catalog. */
  lemma OrdersCatalogFits()
    ensures IdNotForeign(OrdersCatalog.foreignKeys, "orders")
    ensures NoDuplicates(OrdersCatalog.keyedTables) && NoDuplicates(OrdersCatalog.allTables)
    ensures "orders" in OrdersCatalog.keyedTables && "orders" in OrdersCatalog.allTables
    ensures "orders" !in SkipTables
    ensures IdColumn in Columns(OrdersCatalog.recipientColumns, "orders")
    ensures IdColumn in Columns(OrdersCatalog.donorColumns, "orders")
    ensures Columns(OrdersCatalog.recipientKeys, "orders") == [IdColumn]
  {
  }

  /** The orders example as an instance of the merged-keys lemma. */
  lemma OrdersMerged()
    ensures Ids(CopyData(OrdersRecipient, OrdersDonor, OrdersCatalog).recipient["orders"])
         == Ids(OrdersRecipient["orders"]) + PlusAll(Ids(OrdersDonor["orders"]), 3)
  {
    OrdersCatalogFits();
    OrdersCompletes();
    OrdersKeysWellFormed();
    OrdersOffset();
    MergedKeys(OrdersRecipient, OrdersDonor, OrdersCatalog, "orders", 3);
  }

  /** The first two `orders` ids after the run are the recipient's own, 1 and 2. */
  lemma OrdersKeptIds()
    ensures var ids := Ids(CopyData(OrdersRecipient, OrdersDonor, OrdersCatalog).recipient["orders"]);
      |ids| == 5 && ids[0] == Some(1) && ids[1] == Some(2)
  {
    OrdersMerged();
    var before := Ids(OrdersRecipient["orders"]);
    assert |before| == 2 && before[0] == Some(1) && before[1] == Some(2);
    assert |Ids(OrdersDonor["orders"])| == 3;
  }

  /** The last three are the donor's 1, 2, 3 moved by the offset 3. */
  lemma OrdersMovedIds()
    ensures var ids := Ids(CopyData(OrdersRecipient, OrdersDonor, OrdersCatalog).recipient["orders"]);
      |ids| == 5 && ids[2] == Some(4) && ids[3] == Some(5) && ids[4] == Some(6)
  {
    OrdersMerged();
    var source := Ids(OrdersDonor["orders"]);
    assert |Ids(OrdersRecipient["orders"])| == 2;
    assert |source| == 3 && source[0] == Some(1) && source[1] == Some(2) && source[2] == Some(3);
  }

  /** After the run the recipient's `orders` ids are, in row order, 1, 2, 4, 5, 6. */
  lemma OrdersScenario()
    ensures var ids := Ids(CopyData(OrdersRecipient, OrdersDonor, OrdersCatalog).recipient["orders"]);
      && |ids| == 5
      && ids[0] == Some(1) && ids[1] == Some(2)
      && ids[2] == Some(4) && ids[3] == Some(5) && ids[4] == Some(6)
  {
    OrdersKeptIds();
    OrdersMovedIds();
  }

  /** What the link and id-shift lemmas ask of the orders example. */
  lemma OrdersLinkFits()
    ensures SingleEdge(OrdersCatalog.foreignKeys, ItemOrder.childTable, ItemOrder.childColumn)
    ensures ItemOrder in OrdersCatalog.foreignKeys && ItemOrder.parentColumn == IdColumn
    ensures Linked(OrdersDonor, ItemOrder, 0, 0)
  {
  }

  /** The donor's order line follows its order: order 1 became order 4 in
      phase 1, and the line's `order_id` moved with it. */
  lemma OrdersCascade()
    ensures Get(CopyData(OrdersRecipient, OrdersDonor, OrdersCatalog).donor["order_items"][0], "order_id") == Some(4)
  {
    var d := CopyData(OrdersRecipient, OrdersDonor, OrdersCatalog).donor;
    OrdersCompletes();
    OrdersOffset();
    OrdersCatalogFits();
    OrdersLinkFits();
    ForeignKeysSurvive(OrdersRecipient, OrdersDonor, OrdersCatalog, ItemOrder, 0, 0);
    ReconcileShiftsKeys(OrdersRecipient, OrdersDonor, OrdersCatalog.keyedTables, SkipTables,
                        OrdersCatalog.foreignKeys, OrdersCatalog.donorKeys, "orders");
    assert Ids(d["orders"])[0] == Plus(Ids(OrdersDonor["orders"])[0], 3);
  }

  /** Phase 2 appends the donor's order lines, as phase 1 left them, to the
      recipient's (none). */
  lemma OrdersLinesCopied()
    ensures var m := CopyData(OrdersRecipient, OrdersDonor, OrdersCatalog);
      m.recipient["order_items"] == ProjectAll(m.donor["order_items"], ["order_id"])
  {
    var d := CopyData(OrdersRecipient, OrdersDonor, OrdersCatalog).donor;
    var columns := Matched(["order_id"], ["order_id"]);
    OrdersCompletes();
    OrdersCatalogFits();
    assert columns == ["order_id"];
    CopyAllTable(OrdersRecipient, d, OrdersCatalog.allTables, SkipTables, OrdersCatalog, "order_items");
    assert InsertAccepted(OrdersRecipient, d, "order_items", columns, []);
    assert OrdersRecipient["order_items"] + ProjectAll(d["order_items"], columns) == ProjectAll(d["order_items"], columns);
  }

  /** That line points at order 4 in the recipient, the recipient's copy of
      the donor's order 1. */
  lemma OrdersCopiedLine()
    ensures var after := CopyData(OrdersRecipient, OrdersDonor, OrdersCatalog).recipient["order_items"];
      |after| == 1 && Get(after[0], "order_id") == Some(4)
  {
    OrdersLinesCopied();
    OrdersCascade();
  }

  /** A donor id of 0 defeats the disjointness the offset is meant to give:
      recipient ids {5}, donor ids {0, 1} give offset 5, and the moved donor
      id 0 lands on the recipient's 5. */
  lemma ZeroIdCollides()
    ensures
      var recipient := map["t" := [Keyed(5)]];
      var donor := map["t" := [Keyed(0), Keyed(1)]];
      && Offset(recipient, donor, "t") == Some(5)
      && Get(ShiftColumn(donor["t"], IdColumn, 5)[0], IdColumn) == Get(recipient["t"][0], IdColumn)
  {
    var recipient := map["t" := [Keyed(5)]];
    var donor := map["t" := [Keyed(0), Keyed(1)]];
    assert Ids(recipient["t"]) == [Some(5)];
    assert Ids(donor["t"]) == [Some(0), Some(1)];
    assert MaxId(recipient["t"]) == 5;
    assert MaxId(donor["t"]) == 1;
  }

  /** A donor id of 0 also makes the id UPDATE itself fail: with an empty
      recipient table and donor ids {0, 3} the offset is 3, and the row with
      id 0 moves onto the row with id 3 before that row has moved, so the
      iteration aborts and the donor keeps its rows. */
  lemma ZeroIdUpdateAborts()
    ensures
      var recipient: Schema := map["t" := []];
      var donor := map["t" := [Keyed(0), Keyed(3)]];
      var step := ReconcileTable(recipient, donor, [], map["t" := [IdColumn]], "t");
      step.Aborted? && step.donor == donor
  {
    var recipient: Schema := map["t" := []];
    var donor := map["t" := [Keyed(0), Keyed(3)]];
    assert Ids(donor["t"]) == [Some(0), Some(3)];
    assert MaxId(recipient["t"]) == 0;
    assert MaxId(donor["t"]) == 3;
    assert SameKey(ShiftRow(donor["t"][0], IdColumn, 3), donor["t"][1], [IdColumn]);
  }

  /** The cascade shifts a referencing column whatever column it references:
      a post pointing at user code 5 is moved to 6 when the users' ids are
      shifted by 1, while the code stays 5, so the link is broken. */
  lemma NonIdReferenceBreaks()
    ensures
      var e := ForeignKey("posts", "user_code", "users", "code");
      var recipient := map["users" := [Keyed(1)]];
      var donor := map["users" := [map[IdColumn := Some(1), "code" := Some(5)]],
                       "posts" := [map["user_code" := Some(5)]]];
      var step := ReconcileTable(recipient, donor, [e], map[], "users");
      && Linked(donor, e, 0, 0)
      && step.Completed?
      && !Linked(step.donor, e, 0, 0)
  {
    var e := ForeignKey("posts", "user_code", "users", "code");
    var recipient := map["users" := [Keyed(1)]];
    var donor := map["users" := [map[IdColumn := Some(1), "code" := Some(5)]],
                     "posts" := [map["user_code" := Some(5)]]];
    assert Ids(recipient["users"]) == [Some(1)];
    assert Ids(donor["users"]) == [Some(1)];
    assert MaxId(recipient["users"]) == 1;
    assert MaxId(donor["users"]) == 1;
    assert ReferencesTo([e], "users") == [e];
    ReconcileTableEffect(recipient, donor, [e], map[], "users", "posts", 0, "user_code");
    ReconcileTableEffect(recipient, donor, [e], map[], "users", "users", 0, "code");
  }
}

=== FILE: sql.dfy ===
/**
 The fragment of SQL semantics the migration relies on: nullable integer
 cells, `UPDATE t SET c = c + k` and `COALESCE(MAX(id), 0)`.

 A row maps column names to nullable integers and a table is its rows in
 storage order. A column a row does not carry reads as NULL.
 */
module Sql {

  datatype Option<T> = None | Some(value: T)

  type Row = map<string, Option<int>>

  type Table = seq<Row>

  /** A schema maps each table name to the rows of that table. */
  type Schema = map<string, Table>

  /** The key column phase 1 shifts: `id`, alone or in a composite primary key. */
  const IdColumn: string := "id"

  /** The value of one cell; a column the row lacks reads as NULL. */
  function Get(row: Row, column: string): Option<int> {
    if column in row then row[column] else None
  }

  /** SQL `v + k`: NULL plus anything stays NULL. */
  function Plus(v: Option<int>, k: int): Option<int> {
    match v
    case None => None
    case Some(x) => Some(x + k)
  }

  /** Two shifts of a cell add up. */
  lemma PlusTwice(v: Option<int>, a: int, b: int)
    ensures Plus(Plus(v, a), b) == Plus(v, b + a)
  {
  }

  /** `SET column = column + k` on one row. */
  function ShiftRow(row: Row, column: string, k: int): (r: Row)
    ensures Get(r, column) == Plus(Get(row, column), k)
    ensures forall c :: c != column ==> Get(r, c) == Get(row, c)
    ensures r.Keys == row.Keys
  {
    if column in row then row[column := Plus(row[column], k)] else row
  }

  /** `UPDATE table SET column = column + k`, row by row, order kept. */
  function ShiftColumn(t: Table, column: string, k: int): (r: Table)
    ensures |r| == |t|
    ensures forall i :: 0 <= i < |t| ==> r[i] == ShiftRow(t[i], column, k)
  {
    seq(|t|, i requires 0 <= i < |t| => ShiftRow(t[i], column, k))
  }

  /** The `id` cell of every row, in row order. */
  function Ids(t: Table): (r: seq<Option<int>>)
    ensures |r| == |t|
    ensures forall i :: 0 <= i < |t| ==> r[i] == Get(t[i], IdColumn)
  {
    seq(|t|, i requires 0 <= i < |t| => Get(t[i], IdColumn))
  }

  /** Every cell of a column plus `k`, NULLs kept. */
  function PlusAll(vs: seq<Option<int>>, k: int): (r: seq<Option<int>>)
    ensures |r| == |vs|
    ensures forall i :: 0 <= i < |vs| ==> r[i] == Plus(vs[i], k)
  {
    seq(|vs|, i requires 0 <= i < |vs| => Plus(vs[i], k))
  }

  /** SQL `MAX` over a column: NULL exactly when every cell is NULL,
      otherwise the largest non-NULL cell. */
  function Max(vs: seq<Option<int>>): (r: Option<int>)
    ensures r.None? <==> forall i :: 0 <= i < |vs| ==> vs[i].None?
    ensures r.Some? ==> exists i :: 0 <= i < |vs| && vs[i] == r
    ensures forall i :: 0 <= i < |vs| && vs[i].Some? ==> r.Some? && vs[i].value <= r.value
  {
    if |vs| == 0 then None
    else
      var m := Max(vs[..|vs| - 1]);
      var last := vs[|vs| - 1];
      if last.None? then m
      else if m.Some? && last.value <= m.value then m
      else last
  }

  /** `COALESCE(MAX(id), 0)` over a table: an upper bound of every id,
      which is one of the ids, or 0 when the table holds no id at all. */
  function MaxId(t: Table): (m: int)
    ensures forall i :: 0 <= i < |t| && Get(t[i], IdColumn).Some? ==> Get(t[i], IdColumn).value <= m
    ensures (forall i :: 0 <= i < |t| ==> Get(t[i], IdColumn).None?) ==> m == 0
    ensures m == 0 || exists i :: 0 <= i < |t| && Get(t[i], IdColumn) == Some(m)
    ensures (exists i :: 0 <= i < |t| && Get(t[i], IdColumn).Some?) ==>
      exists i :: 0 <= i < |t| && Get(t[i], IdColumn) == Some(m)
  {
    var ids := Ids(t);
    match Max(ids)
    case None => 0
    case Some(v) =>
      assert exists i :: 0 <= i < |ids| && ids[i] == Some(v);
      v
  }

  /** No two rows of the table share an id: `id` alone is the primary key.
      A primary-key cell is never NULL, so NULL counts as a value here. */
  predicate DistinctIds(t: Table) {
    forall i, j :: 0 <= i < |t| && 0 <= j < |t| && i != j ==>
      Get(t[i], IdColumn) != Get(t[j], IdColumn)
  }

  /** Every non-NULL id is at least 1. */
  predicate IdsAboveZero(t: Table) {
    forall i :: 0 <= i < |t| && Get(t[i], IdColumn).Some? ==> Get(t[i], IdColumn).value >= 1
  }

  /** Two rows agree on every column of `key`. */
  predicate SameKey(a: Row, b: Row, key: seq<string>) {
    forall c :: c in key ==> Get(a, c) == Get(b, c)
  }

  /** No two rows agree on every column of `key`: `key` is a primary key of
      the table, possibly a composite one. */
  predicate DistinctKeys(t: Table, key: seq<string>) {
    forall i, j :: 0 <= i < |t| && 0 <= j < |t| && i != j ==> !SameKey(t[i], t[j], key)
  }

  /** A primary key that is `id` alone is distinct exactly when the ids are. */
  lemma KeyIsId(t: Table)
    ensures DistinctKeys(t, [IdColumn]) <==> DistinctIds(t)
  {
    assert forall a: Row, b: Row :: SameKey(a, b, [IdColumn]) <==> Get(a, IdColumn) == Get(b, IdColumn);
  }

  /** Every row has a non-NULL id of at least 1, as an auto-increment key does. */
  predicate PositiveIds(t: Table) {
    forall i :: 0 <= i < |t| ==> Get(t[i], IdColumn).Some? && Get(t[i], IdColumn).value >= 1
  }

  /** Shifting a column by 0 changes nothing: the zero-offset case. */
  lemma ShiftColumnByZero(t: Table, column: string)
    ensures ShiftColumn(t, column, 0) == t
  {
    var r := ShiftColumn(t, column, 0);
    forall i | 0 <= i < |t|
      ensures r[i] == t[i]
    {
      if column in t[i] {
        assert t[i][column := Plus(t[i][column], 0)] == t[i];
      }
    }
  }

  /** Shifting the id column keeps distinct ids distinct. */
  lemma ShiftKeepsIdsDistinct(t: Table, k: int)
    requires DistinctIds(t)
    ensures DistinctIds(ShiftColumn(t, IdColumn, k))
  {
  }
}
